=== FILE: README.md ===
# pulp_file sync reconciliation, modelled in Dafny

This project models the synchronizer of the `pulp_file` plugin: the
`Synchronizer` class and the `sync` task in `pulp_file/app/tasks.py`. A sync
reads a remote manifest of `(path, digest, size)` entries and takes the
`(path, digest)` natural keys of the latest complete repository version as
its inventory. It adds the keys only the manifest has. Because it mirrors,
it also removes the keys only the inventory has. Each manifest entry whose
key is added becomes a pending content unit with one pending artifact. The
artifact is fetched from the manifest's directory when the entry's path is
relative, and from that path itself when it is absolute. A key the manifest
repeats becomes one unit per occurrence. Each removed key is resolved back to
the identifiers of the prior version's content units. The `sync` task wraps this in a version lifecycle.
It refuses an importer without a feed URL and stages version
`last_version + 1`. It completes that version only when the run succeeds.
When the run fails, it deletes the version and its created-resource record. A
failure while entering the working directory or logging the start of the sync
happens before the guarded run; it leaves the staged version in place,
incomplete and invisible to readers.

Layout, one module per file:

- `wrappers.dfy` (`Wrappers`): `Option` and `Result`.
- `keys.dfy` (`Keys`): the `Key` namedtuple, manifest entries, stored content
  records and their key sets.
- `paths.dfy` (`Paths`): `posixpath.dirname` and two-argument
  `posixpath.join` on `/`-separated strings.
- `urls.dfy` (`Urls`): the parsed-URL record and the fetch URL of an entry.
- `delta.dfy` (`Delta`): `_fetch_inventory` and `_find_delta`.
- `additions.dfy` (`Additions`): `_build_additions`.
- `removals.dfy` (`Removals`): `_build_removals`, both unbatched and batched.
- `synchronizer.dfy` (`Synchronizer`): `run`, the change set it hands to the
  apply engine, and the sizes it announces.
- `sync_task.dfy` (`SyncTask`): the `sync` task and the repository state it
  changes.
- `scenarios.dfy` (`Scenarios`): worked examples on concrete manifests.

Collaborators the model takes as inputs:

- The manifest arrives as `Option<seq<Entry>>`. `None` stands for a failed
  download or read. The same sequence serves both passes over the manifest.
- The apply engine (`ChangeSet.apply_and_drain`) is a function from the
  change set to `Option<content>`. `None` is a failure. `Some` carries the
  content of the new version.
- Whether entering the working directory and logging the start succeed is a
  boolean input.
- The feed URL is given both as text (for the emptiness check) and as the
  record `urlparse` produces.

## Model

| member | source | states |
|---|---|---|
| Keys.ManifestKeys | pulp_file/app/tasks.py:266 | a key is a remote key exactly when some manifest entry carries it; there are no more keys than entries |
| Keys.ContentKeys | pulp_file/app/tasks.py:247-251 | a key is in the inventory exactly when some content unit of the prior version carries it |
| Delta.FetchInventory | pulp_file/app/tasks.py:242-251 | no prior version gives the empty inventory; otherwise the inventory is exactly the keys of the prior version's content |
| Delta.FindDelta | pulp_file/app/tasks.py:253-270 | keys_to_add are the manifest keys the inventory lacks; under mirror, keys_to_remove are the inventory keys the manifest lacks; without mirror nothing is removed; the two sets are disjoint |
| Delta.DeltaReconciles | pulp_file/app/tasks.py:264-270 | applying a mirror delta to the inventory yields exactly the manifest's keys; without mirror it yields their union |
| Delta.DeltaIdempotent | pulp_file/app/tasks.py:266-270 | when the inventory equals the manifest's keys, nothing is added or removed |
| Delta.SecondSyncIsEmpty | pulp_file/app/tasks.py:266-270 | a second mirror sync against the result of the first finds an empty delta |
| Delta.FirstSyncAddsAll | pulp_file/app/tasks.py:246-270 | with no prior version every manifest key is added and nothing is removed, whatever the mirror flag |
| Delta.EmptyManifestRemovesAll | pulp_file/app/tasks.py:266-270 | an empty manifest under mirror adds nothing and removes the whole inventory |
| Paths.Dirname | pulp_file/app/tasks.py:286 | the directory is a prefix of the path that ends no later than its last '/', empty exactly when the path has no '/', carries no trailing '/' unless it is all slashes, only slashes separate it from the last '/', and a head made of slashes only is returned whole |
| Paths.Join | pulp_file/app/tasks.py:295 | the joined path ends with the entry path; an absolute entry path replaces the directory; a relative one is appended to the directory, with a '/' between them exactly when the directory is non-empty and does not already end in '/' |
| Paths.DirnameOfJoin | pulp_file/app/tasks.py:285-295 | the directory of a directory joined with a plain file name is that directory |
| Urls.EntryUrl | pulp_file/app/tasks.py:285-296 | the fetch URL has the feed's scheme, host, params, query and fragment; its path ends with the entry's path and, for a relative entry, starts with the feed's directory |
| Urls.EntryUrlIsSibling | pulp_file/app/tasks.py:285-296 | for a feed `<dir>/<manifest>`, a manifest at the host root included, a relative entry is fetched from `<dir>/<entry>` with the feed's scheme, host, params, query and fragment |
| Urls.EntryUrlAbsolute | pulp_file/app/tasks.py:295-296 | an absolute entry path becomes the fetch path as is; only the path of the feed URL changes |
| Additions.Describe | pulp_file/app/tasks.py:294-305 | content and artifact name the entry's path and digest and the artifact has its size; the artifact comes from a URL of the feed's origin whose path ends with the entry's path and, for a relative entry, lies under the feed's directory |
| Additions.DescribeFetchesSibling | pulp_file/app/tasks.py:285-304 | for a feed `<dir>/<manifest>`, the descriptor of a relative entry is fetched from the feed URL with its path replaced by `<dir>/<entry>` |
| Additions.BuildAdditions | pulp_file/app/tasks.py:288-306 | the second pass yields at most one descriptor per manifest entry |
| Additions.AdditionSource | pulp_file/app/tasks.py:288-306 | each descriptor describes a manifest entry whose key was chosen for addition |
| Additions.AdditionsSound | pulp_file/app/tasks.py:288-306 | every yielded descriptor describes some chosen manifest entry, so nothing else is yielded |
| Additions.AdditionsComplete | pulp_file/app/tasks.py:288-306 | every manifest entry whose key is chosen is described in the output |
| Additions.AdditionsDistribute | pulp_file/app/tasks.py:288-306 | the expansion of a concatenated manifest is the concatenation of the expansions |
| Additions.AdditionsPreserveOrder | pulp_file/app/tasks.py:288-306 | two chosen entries appear in the output in manifest order |
| Additions.AdditionsLength | pulp_file/app/tasks.py:288-306 | there is one descriptor per manifest position whose key was chosen, repeated keys counted each time |
| Additions.AdditionsCount | pulp_file/app/tasks.py:288-306 | without repeated keys in the manifest, there is one descriptor per chosen key present in the manifest |
| Additions.DuplicateEntriesYieldTwice | pulp_file/app/tasks.py:288-306 | a manifest listing one chosen key twice yields two descriptors |
| Removals.BuildRemovals | pulp_file/app/tasks.py:315-322 | the lookup of all chosen keys at once, the unbatched equivalent of `BatchedRemovals`; it yields at most one identifier per content unit of the prior version |
| Removals.BatchedRemovals | pulp_file/app/tasks.py:315-322 | one lookup per batch, the results concatenated batch after batch, so at most one identifier per unit and batch; `BatchingPreservesRemovals` shows it yields the unbatched identifiers |
| Removals.RemovalSource | pulp_file/app/tasks.py:315-322 | each yielded identifier belongs to a prior content unit whose key was chosen for removal |
| Removals.RemovalsComplete | pulp_file/app/tasks.py:315-322 | every prior content unit whose key was chosen has its identifier yielded |
| Removals.RemovalsAgree | pulp_file/app/tasks.py:315-322 | the removals depend only on which keys of the listed units are chosen |
| Removals.RemovalsSkipMissing | pulp_file/app/tasks.py:315-322 | chosen keys that no prior unit carries change nothing and raise nothing |
| Removals.RemovalsUnion | pulp_file/app/tasks.py:315-322 | looking up two disjoint key sets together yields the same identifiers, with the same multiplicities, as looking them up apart |
| Removals.BatchUnion | pulp_file/app/tasks.py:315 | every batch lies in the union, and every key of the union lies in some batch |
| Removals.BatchingPreservesRemovals | pulp_file/app/tasks.py:315-322 | for any split of keys_to_remove into non-empty disjoint batches, the batched lookups yield the unbatched identifiers with the same multiplicities |
| Removals.EmptyKeysRemoveNothing | pulp_file/app/tasks.py:315-322 | with no key to remove, nothing is yielded |
| Removals.RemovalsLength | pulp_file/app/tasks.py:315-322 | there is one identifier per listed unit whose key was chosen |
| Removals.RemovalsCount | pulp_file/app/tasks.py:315-322 | without repeated keys in the prior listing, there is one identifier per chosen key the listing holds |
| Synchronizer.Plan | pulp_file/app/tasks.py:218-227 | the announced sizes are the number of manifest keys the inventory lacks and of inventory keys the manifest lacks; there are no more additions than entries and no more removals than prior units |
| Synchronizer.Run | pulp_file/app/tasks.py:202-240 | the run succeeds exactly when the manifest is read and the apply engine succeeds, returning the engine's content; a missing manifest and a failed apply are reported as such |
| Synchronizer.PlanAdditions | pulp_file/app/tasks.py:215-224 | the run's additions describe exactly the manifest entries whose key the prior version lacks |
| Synchronizer.FirstSyncRemovesNothing | pulp_file/app/tasks.py:218-227 | with no prior version the run removes nothing and announces zero removals |
| Synchronizer.PlanRemovalsComplete | pulp_file/app/tasks.py:218-227 | every prior content unit whose key the manifest lacks is removed |
| Synchronizer.PlanRemovalsSound | pulp_file/app/tasks.py:218-227 | only prior content units whose key the manifest lacks are removed |
| Synchronizer.AdditionCountExact | pulp_file/app/tasks.py:222-224 | the size announced for the additions, len(keys_to_add), equals the number of descriptors when the manifest repeats no key |
| Synchronizer.RemovalCountExact | pulp_file/app/tasks.py:225-227 | the size announced for the removals, len(keys_to_remove), equals the number of identifiers when the prior listing repeats no key |
| SyncTask.LatestComplete | pulp_file/app/tasks.py:144-146 | the base version is a complete version with the highest number, and there is none exactly when no version is complete |
| SyncTask.BaseContent | pulp_file/app/tasks.py:144-146 | the sync starts from the content of a complete version with the highest number, and from nothing exactly when no version is complete |
| SyncTask.LatestCompleteIgnoresIncomplete | pulp_file/app/tasks.py:148-155 | staging an incomplete version does not change which version readers see as latest |
| SyncTask.LatestCompleteTakesNewest | pulp_file/app/tasks.py:165-169 | completing a version numbered above all others makes it the latest complete version |
| SyncTask.Sync | pulp_file/app/tasks.py:128-174 | an empty feed URL fails before anything is created; otherwise version last_version + 1 is staged incomplete and the counter advanced; a setup failure leaves that version staged; the version is completed with the engine's content exactly when setup, the manifest read and the apply succeed; when the run fails, the version and its created resource are deleted, the error is passed on, and the counter stays advanced; no failure changes the latest complete version; repository validity is preserved |
| SyncTask.RunStaged | pulp_file/app/tasks.py:165-174 | the staged version is completed with the engine's content exactly when the manifest is read and the apply succeeds, keeping its created resource; otherwise the version and its created resource are deleted, the counter stays advanced and the error (manifest unavailable or apply failed) is passed on |
| SyncTask.Settle | pulp_file/app/tasks.py:166-174 | after a successful run the staged version becomes complete with the run's content and keeps its created resource; after a failed run the version and its created resource are gone, the counter stays advanced and the run's error is the result |
| SyncTask.CompletedIsLatest | pulp_file/app/tasks.py:165-169 | completing version last_version + 1 keeps the repository valid and makes that version the latest complete one |
| SyncTask.ValidAfterAppend | pulp_file/app/tasks.py:148-153 | appending version last_version + 1 and advancing the counter keeps numbers increasing and within the counter |
| Scenarios.OneFileAddedDelta | pulp_file/app/tasks.py:266-270 | manifest {a.txt/d1, b.txt/d2} against inventory {a.txt/d1} adds only b.txt/d2 and removes nothing |
| Scenarios.OneFileAddedDescriptor | pulp_file/app/tasks.py:288-306 | that delta expands to exactly one descriptor, for b.txt with digest d2 and size 20 |
| Scenarios.OneFileAddedUrl | pulp_file/app/tasks.py:285-304 | for any feed URL whose path is /repo/PULP_MANIFEST, that descriptor is fetched from /repo/b.txt with the rest of the feed URL (scheme, host, query) kept |
| Scenarios.StaleFileRemoved | pulp_file/app/tasks.py:215-227 | manifest {a.txt/d1} against a prior version also holding old.txt/dX adds nothing and removes exactly old.txt's identifier |
| Scenarios.VanishedKeySkipped | pulp_file/app/tasks.py:315-322 | a removal key the prior listing no longer holds yields nothing |

Behaviour of the code worth knowing:

- A manifest that repeats a key yields one descriptor per occurrence
  (`Additions.DuplicateEntriesYieldTwice`). The announced size
  `len(keys_to_add)` is then smaller than the stream.
- The `sync` task itself creates, completes and deletes the new version.
  It raises `ValueError` for a missing feed URL, modelled as `MissingFeedUrl`.
- A failed sync leaves `last_version` advanced, so version numbers are never
  reused.

## Left out

- Downloading the manifest (`_fetch_manifest`, `get_downloader().fetch()`) is network I/O. The manifest file format and its codec (`pulp_file.manifest`) are not part of this model. The parsed manifest is an input, and `None` stands for any download or parse failure.
- `ChangeSet.apply_and_drain`, `PendingArtifact`/`PendingContent` persistence, `SizedIterable` and `BatchIterator` are foreign code. The apply engine is a function parameter that may fail. Batches are any split of the keys into non-empty disjoint sets, because set iteration order is unspecified.
- The ORM is left out: querysets, `Q` objects, `.cast()`, `.only('id')` and `transaction.atomic`. The prior version's content is a sequence of `(id, path, digest)` records. The lookup yields identifiers in listing order, while the database's row order is unspecified. The transactions become the `staged` and `final` states of `SyncTask.Sync`.
- A pending content unit carries its one pending artifact as a field rather than a one-element set.
- `RepositoryVersion.latest()` is taken to order by version number.
- `_publish`, `_find_artifact` and `publish` write the published manifest and database records. That is publication, not reconciliation.
- `pulp_file/app/viewsets.py` is left out: it handles REST requests and dispatches tasks.
- The Celery task wrapper is runtime plumbing. Entering `working_dir_context` and the start-of-sync `log.info` are modelled only by whether they succeed. They run after the version is staged and outside the `try`, so their failure leaves the staged version behind.
- SyncTask.Sync: does not model a failure when `working_dir_context` is left after the version was completed. The context manager is not part of this model.
- Syncs of one repository are assumed to run one at a time. `last_version` is read and written without a lock, and two concurrent syncs are not modelled.
- `BatchIterator` is assumed to yield only non-empty chunks, and no chunk at all for an empty `keys_to_remove`. An empty chunk would give the filter `Q()`, which matches every unit of the prior version. `Removals.IsPartition` therefore demands non-empty batches, and `Removals.EmptyKeysRemoveNothing` reflects that no lookup runs at all.
- `urlparse` and `urlunparse` are not modelled as text codecs. A URL is the six-field record they exchange.
- `_find_delta` is called from `run` only with its default `mirror=True`. The `mirror=False` branch is modelled in `Delta.FindDelta` but is unreachable from `run`.
- Additions.BuildAdditions: its own contract only bounds the output length. What the output contains, and its order, are stated by `AdditionSource`, `AdditionsSound`, `AdditionsComplete`, `AdditionsDistribute` and `AdditionsPreserveOrder`. Those quantified facts are kept out of the function's contract so that the function stays cheap to unfold.
- Removals.BuildRemovals: as with `BuildAdditions`, its own contract only bounds the length. `RemovalSource` and `RemovalsComplete` state what it yields.

=== FILE: additions.dfy ===
/** The second pass over the manifest: every entry whose key was chosen for
    addition becomes a pending content unit with one pending artifact. */
module Additions {
  import opened Keys
  import opened Paths
  import opened Urls

  /** The file content unit to create: its natural key fields. */
  datatype FileContent = FileContent(path: string, digest: string)

  /** The artifact expected behind the content, as the manifest describes it. */
  datatype Artifact = Artifact(size: nat, sha256: string)

  /** An artifact still to be downloaded from `url` and stored at `relativePath`. */
  datatype PendingArtifact = PendingArtifact(artifact: Artifact, url: Url, relativePath: string)

  /** A content unit still to be created, with the artifact it needs. */
  datatype PendingContent = PendingContent(content: FileContent, artifact: PendingArtifact)

  /** `d` is the descriptor of manifest entry `e` fetched relative to `feed`:
      same path, digest and size, and a URL that keeps everything of the feed
      URL but its path, which becomes the entry's path joined onto the feed's
      directory. */
  predicate Describes(d: PendingContent, e: Entry, feed: Url) {
    && d.content == FileContent(e.path, e.digest)
    && d.artifact.artifact == Artifact(e.size, e.digest)
    && d.artifact.relativePath == e.path
    && SameOrigin(d.artifact.url, feed)
    && d.artifact.url.path == Join(Dirname(feed.path), e.path)
  }

  /** The descriptor of entry `e`: content and artifact both name the entry's
      path and digest, the artifact has the entry's size, and it is fetched
      from a URL of the feed's origin whose path ends with the entry's path,
      under the feed's directory when the entry's path is relative. */
  function Describe(feed: Url, e: Entry): (d: PendingContent)
    ensures d.content.path == d.artifact.relativePath == e.path
    ensures d.content.digest == d.artifact.artifact.sha256 == e.digest
    ensures d.artifact.artifact.size == e.size
    ensures SameOrigin(d.artifact.url, feed)
    ensures |e.path| <= |d.artifact.url.path|
    ensures d.artifact.url.path[|d.artifact.url.path| - |e.path|..] == e.path
    ensures (|e.path| == 0 || e.path[0] != '/') ==> FeedDir(feed) <= d.artifact.url.path
  {
    PendingContent(FileContent(e.path, e.digest),
                   PendingArtifact(Artifact(e.size, e.digest), EntryUrl(feed, e.path), e.path))
  }

  /** The descriptors for the entries of `m` whose key is in `keys`, in
      manifest order (see `AdditionsSound` and `AdditionsComplete`). */
  function BuildAdditions(m: seq<Entry>, keys: set<Key>, feed: Url): (r: seq<PendingContent>)
    ensures |r| <= |m|
  {
    if |m| == 0 then []
    else
      var rest := BuildAdditions(m[1..], keys, feed);
      if m[0].NaturalKey() in keys then [Describe(feed, m[0])] + rest else rest
  }

  /** `Describe` builds the descriptor `Describes` characterises. */
  lemma DescribeDescribes(feed: Url, e: Entry)
    ensures Describes(Describe(feed, e), e, feed)
  {
  }

  /** The manifest entry behind the `j`-th descriptor: one whose key was
      chosen and which the descriptor describes. */
  lemma {:induction false} AdditionSource(m: seq<Entry>, keys: set<Key>, feed: Url, j: nat) returns (i: nat)
    requires j < |BuildAdditions(m, keys, feed)|
    ensures i < |m| && m[i].NaturalKey() in keys
    ensures Describes(BuildAdditions(m, keys, feed)[j], m[i], feed)
    decreases |m|
  {
    var rest := BuildAdditions(m[1..], keys, feed);
    if m[0].NaturalKey() in keys && j == 0 {
      i := 0;
      DescribeDescribes(feed, m[0]);
    } else {
      var jr := if m[0].NaturalKey() in keys then j - 1 else j;
      assert BuildAdditions(m, keys, feed)[j] == rest[jr];
      var ir := AdditionSource(m[1..], keys, feed, jr);
      assert m[1..][ir] == m[ir + 1];
      i := ir + 1;
    }
  }

  /** `d` describes some entry of `m` whose key is in `keys`. */
  predicate DescribesChosen(d: PendingContent, m: seq<Entry>, keys: set<Key>, feed: Url) {
    exists i :: 0 <= i < |m| && m[i].NaturalKey() in keys && Describes(d, m[i], feed)
  }

  /** Every descriptor describes a manifest entry whose key was chosen. */
  lemma AdditionsSound(m: seq<Entry>, keys: set<Key>, feed: Url)
    ensures forall d :: d in BuildAdditions(m, keys, feed) ==> DescribesChosen(d, m, keys, feed)
  {
    var r := BuildAdditions(m, keys, feed);
    forall d | d in r
      ensures DescribesChosen(d, m, keys, feed)
    {
      var j :| 0 <= j < |r| && r[j] == d;
      var i := AdditionSource(m, keys, feed, j);
      assert 0 <= i < |m| && m[i].NaturalKey() in keys && Describes(d, m[i], feed);
    }
  }

  /** For a feed `<dir>/<manifest>`, the descriptor of a relative entry is
      fetched from `<dir>/<entry>`, the manifest's own directory. */
  lemma DescribeFetchesSibling(feed: Url, dir: string, manifestName: string, e: Entry)
    requires feed.path == dir + "/" + manifestName
    requires |dir| == 0 || dir[|dir| - 1] != '/'
    requires forall i :: 0 <= i < |manifestName| ==> manifestName[i] != '/'
    requires |e.path| == 0 || e.path[0] != '/'
    ensures Describe(feed, e).artifact.url == feed.(path := dir + "/" + e.path)
  {
    EntryUrlIsSibling(feed, dir, manifestName, e.path);
  }

  /** Every manifest entry whose key was chosen is described. */
  lemma {:induction false} AdditionsComplete(m: seq<Entry>, keys: set<Key>, feed: Url)
    ensures forall i :: 0 <= i < |m| && m[i].NaturalKey() in keys ==> Describe(feed, m[i]) in BuildAdditions(m, keys, feed)
    decreases |m|
  {
    if |m| > 0 {
      AdditionsComplete(m[1..], keys, feed);
      forall i | 0 < i < |m|
        ensures m[i] == m[1..][i - 1]
      {
      }
    }
  }

  /** The expansion is computed entry by entry: splitting the manifest splits
      the descriptors the same way, which is what keeps manifest order. */
  lemma {:induction false} AdditionsDistribute(a: seq<Entry>, b: seq<Entry>, keys: set<Key>, feed: Url)
    ensures BuildAdditions(a + b, keys, feed) == BuildAdditions(a, keys, feed) + BuildAdditions(b, keys, feed)
    decreases |a|
  {
    if |a| == 0 {
      assert a + b == b;
    } else {
      assert (a + b)[1..] == a[1..] + b;
      AdditionsDistribute(a[1..], b, keys, feed);
    }
  }

  /** Two kept entries appear in the output in manifest order. */
  lemma AdditionsPreserveOrder(m: seq<Entry>, keys: set<Key>, feed: Url, i: nat, j: nat)
    requires i < j < |m|
    requires m[i].NaturalKey() in keys && m[j].NaturalKey() in keys
    ensures exists p, q :: 0 <= p < q < |BuildAdditions(m, keys, feed)|
              && BuildAdditions(m, keys, feed)[p] == Describe(feed, m[i])
              && BuildAdditions(m, keys, feed)[q] == Describe(feed, m[j])
  {
    var front, back := m[..j], m[j..];
    assert m == front + back;
    AdditionsDistribute(front, back, keys, feed);
    var fr := BuildAdditions(front, keys, feed);
    var br := BuildAdditions(back, keys, feed);
    assert front[i] == m[i];
    AdditionsComplete(front, keys, feed);
    assert Describe(feed, m[i]) in fr;
    var p :| 0 <= p < |fr| && fr[p] == Describe(feed, m[i]);
    assert back[0] == m[j];
    assert br[0] == Describe(feed, m[j]);
    assert (fr + br)[p] == fr[p];
    assert (fr + br)[|fr|] == br[0];
  }

  /** There is one descriptor per manifest position whose key was chosen,
      repeated keys included. */
  lemma {:induction false} AdditionsLength(m: seq<Entry>, keys: set<Key>, feed: Url)
    ensures |BuildAdditions(m, keys, feed)| == CountIn(EntryKeys(m), keys)
    decreases |m|
  {
    if |m| > 0 {
      assert EntryKeys(m)[1..] == EntryKeys(m[1..]);
      AdditionsLength(m[1..], keys, feed);
    }
  }

  /** With no duplicate keys in the manifest, there is exactly one descriptor
      per manifest key that was chosen. */
  lemma AdditionsCount(m: seq<Entry>, keys: set<Key>, feed: Url)
    requires DistinctEntries(m)
    ensures |BuildAdditions(m, keys, feed)| == |keys * ManifestKeys(m)|
  {
    AdditionsLength(m, keys, feed);
    CountInDistinct(EntryKeys(m), keys);
  }

  /** A manifest listing one key twice yields two descriptors for that one
      chosen key. */
  lemma DuplicateEntriesYieldTwice(feed: Url)
    ensures var e := Entry("a.txt", "d1", 10);
            |BuildAdditions([e, e], {e.NaturalKey()}, feed)| == 2
  {
    var e := Entry("a.txt", "d1", 10);
    assert [e, e][1..] == [e];
    assert [e][1..] == [];
  }
}

=== FILE: delta.dfy ===
/** The inventory snapshot of the prior version and the key-level delta
    between the remote manifest and that snapshot. */
module Delta {
  import opened Wrappers
  import opened Keys

  /** The add and remove decisions of one sync, as natural keys. */
  datatype DeltaResult = DeltaResult(keysToAdd: set<Key>, keysToRemove: set<Key>)

  /** The natural keys of the prior version's content; a first sync, with no
      prior version, starts from the empty inventory. */
  function FetchInventory(prior: Option<seq<ContentRecord>>): (r: set<Key>)
    ensures prior.None? ==> r == {}
    ensures prior.Some? ==> forall i :: 0 <= i < |prior.value| ==> prior.value[i].NaturalKey() in r
    ensures prior.Some? ==> forall k :: k in r <==> k in RecordKeys(prior.value)
  {
    match prior
    case None => {}
    case Some(content) => ContentKeys(content)
  }

  /** Reads the manifest's keys and compares them with the inventory: keys
      only the manifest has are added; with `mirror`, keys only the inventory
      has are removed, and without it nothing is removed. */
  function FindDelta(manifest: seq<Entry>, inventory: set<Key>, mirror: bool): (d: DeltaResult)
    ensures forall k :: k in d.keysToAdd <==> k in ManifestKeys(manifest) && k !in inventory
    ensures mirror ==> forall k :: k in d.keysToRemove <==> k in inventory && k !in ManifestKeys(manifest)
    ensures !mirror ==> d.keysToRemove == {}
    ensures d.keysToAdd !! d.keysToRemove
    ensures d.keysToAdd <= ManifestKeys(manifest) && d.keysToRemove <= inventory
  {
    var remote := ManifestKeys(manifest);
    DeltaResult(remote - inventory, if mirror then inventory - remote else {})
  }

  /** The key set a version holds once a delta is applied to its inventory. */
  function ApplyDelta(inventory: set<Key>, d: DeltaResult): set<Key> {
    (inventory - d.keysToRemove) + d.keysToAdd
  }

  /** Mirroring reconciles: applying the delta yields exactly the manifest's
      keys. Without mirroring the result is the union of both sides. */
  lemma DeltaReconciles(manifest: seq<Entry>, inventory: set<Key>, mirror: bool)
    ensures mirror ==> ApplyDelta(inventory, FindDelta(manifest, inventory, mirror)) == ManifestKeys(manifest)
    ensures !mirror ==> ApplyDelta(inventory, FindDelta(manifest, inventory, mirror)) == inventory + ManifestKeys(manifest)
  {
  }

  /** A sync whose inventory already equals the manifest changes nothing. */
  lemma DeltaIdempotent(manifest: seq<Entry>, inventory: set<Key>, mirror: bool)
    requires inventory == ManifestKeys(manifest)
    ensures FindDelta(manifest, inventory, mirror) == DeltaResult({}, {})
  {
  }

  /** Running the same mirror sync a second time, against the version the
      first one produced, finds nothing to add or remove. */
  lemma SecondSyncIsEmpty(manifest: seq<Entry>, inventory: set<Key>)
    ensures FindDelta(manifest, ApplyDelta(inventory, FindDelta(manifest, inventory, true)), true) == DeltaResult({}, {})
  {
    DeltaReconciles(manifest, inventory, true);
    DeltaIdempotent(manifest, ApplyDelta(inventory, FindDelta(manifest, inventory, true)), true);
  }

  /** A first sync adds every manifest key and removes nothing, whatever the
      mirror setting. */
  lemma FirstSyncAddsAll(manifest: seq<Entry>, mirror: bool)
    ensures FindDelta(manifest, FetchInventory(None), mirror) == DeltaResult(ManifestKeys(manifest), {})
  {
  }

  /** An empty manifest under mirroring removes the whole inventory. */
  lemma EmptyManifestRemovesAll(inventory: set<Key>)
    ensures FindDelta([], inventory, true) == DeltaResult({}, inventory)
  {
  }
}

=== FILE: keys.dfy ===
/** The natural key of file content and the two kinds of records it is
    projected from: a manifest entry (remote) and a stored content unit (local). */
module Keys {

  /** The `(path, digest)` natural key; two keys are equal only when both
      fields are equal, so a changed digest is a different key. */
  datatype Key = Key(path: string, digest: string)

  /** One line of the remote manifest. */
  datatype Entry = Entry(path: string, digest: string, size: nat) {
    function NaturalKey(): Key {
      Key(path, digest)
    }
  }

  /** A file content unit of a stored repository version: its database
      identifier and the two fields its natural key is made of. */
  datatype ContentRecord = ContentRecord(id: nat, path: string, digest: string) {
    function NaturalKey(): Key {
      Key(path, digest)
    }
  }

  /** The keys of a manifest, entry by entry. */
  function EntryKeys(m: seq<Entry>): seq<Key> {
    seq(|m|, i requires 0 <= i < |m| => m[i].NaturalKey())
  }

  /** The keys of a content listing, unit by unit. */
  function RecordKeys(c: seq<ContentRecord>): seq<Key> {
    seq(|c|, i requires 0 <= i < |c| => c[i].NaturalKey())
  }

  /** The set of keys occurring in `ks`. */
  function KeySet(ks: seq<Key>): (r: set<Key>)
    ensures forall i :: 0 <= i < |ks| ==> ks[i] in r
    ensures forall k :: k in r <==> k in ks
    ensures |r| <= |ks|
  {
    if |ks| == 0 then {} else {ks[0]} + KeySet(ks[1..])
  }

  /** No key occurs twice in `ks`. */
  predicate Distinct(ks: seq<Key>) {
    forall i, j :: 0 <= i < j < |ks| ==> ks[i] != ks[j]
  }

  /** How many positions of `ks` hold a key of `keys`. */
  function CountIn(ks: seq<Key>, keys: set<Key>): nat {
    if |ks| == 0 then 0 else (if ks[0] in keys then 1 else 0) + CountIn(ks[1..], keys)
  }

  /** Without repeated keys, the positions holding a key of `keys` are as
      many as the keys of `keys` that occur. */
  lemma {:induction false} CountInDistinct(ks: seq<Key>, keys: set<Key>)
    requires Distinct(ks)
    ensures CountIn(ks, keys) == |keys * KeySet(ks)|
    decreases |ks|
  {
    if |ks| > 0 {
      DistinctTail(ks);
      CountInDistinct(ks[1..], keys);
      InsertIntersection(keys, ks[0], KeySet(ks[1..]));
    }
  }

  /** The tail of a sequence without repeated keys has none either, and does
      not hold its head. */
  lemma DistinctTail(ks: seq<Key>)
    requires Distinct(ks) && |ks| > 0
    ensures Distinct(ks[1..])
    ensures ks[0] !in KeySet(ks[1..])
  {
    var rest := ks[1..];
    forall i, j | 0 <= i < j < |rest|
      ensures rest[i] != rest[j]
    {
      assert rest[i] == ks[i + 1] && rest[j] == ks[j + 1];
    }
    forall i | 0 <= i < |rest|
      ensures rest[i] != ks[0]
    {
      assert rest[i] == ks[i + 1];
    }
  }

  /** Adding a new key `x` to `s` adds one to its intersection with `keys`
      when `x` is in `keys`, and nothing otherwise. */
  lemma InsertIntersection(keys: set<Key>, x: Key, s: set<Key>)
    requires x !in s
    ensures |keys * ({x} + s)| == (if x in keys then 1 else 0) + |keys * s|
  {
    if x in keys {
      assert keys * ({x} + s) == {x} + keys * s;
    } else {
      assert keys * ({x} + s) == keys * s;
    }
  }

  /** The set of natural keys of a manifest. */
  function ManifestKeys(m: seq<Entry>): (r: set<Key>)
    ensures forall i :: 0 <= i < |m| ==> m[i].NaturalKey() in r
    ensures forall k :: k in r <==> k in EntryKeys(m)
    ensures |r| <= |m|
  {
    var ks := EntryKeys(m);
    assert forall i :: 0 <= i < |m| ==> ks[i] == m[i].NaturalKey();
    KeySet(ks)
  }

  /** The set of natural keys of a version's content listing. */
  function ContentKeys(c: seq<ContentRecord>): (r: set<Key>)
    ensures forall i :: 0 <= i < |c| ==> c[i].NaturalKey() in r
    ensures forall k :: k in r <==> k in RecordKeys(c)
    ensures |r| <= |c|
  {
    var ks := RecordKeys(c);
    assert forall i :: 0 <= i < |c| ==> ks[i] == c[i].NaturalKey();
    KeySet(ks)
  }

  /** No two entries of the manifest share a natural key. */
  predicate DistinctEntries(m: seq<Entry>) {
    Distinct(EntryKeys(m))
  }

  /** No two content units of the listing share a natural key. */
  predicate DistinctContent(c: seq<ContentRecord>) {
    Distinct(RecordKeys(c))
  }
}

=== FILE: paths.dfy ===
/** The two `posixpath` operations the synchronizer uses to place a manifest
    entry next to the manifest: `dirname` and two-argument `join`. Paths are
    strings separated by '/'. */
module Paths {

  predicate AllSlashes(s: string) {
    forall i :: 0 <= i < |s| ==> s[i] == '/'
  }

  /** One past the index of the last '/' in `p` (`p.rfind('/') + 1`), or 0 when
      there is none. */
  function AfterLastSlash(p: string): (r: nat)
    ensures r <= |p|
    ensures r > 0 ==> p[r - 1] == '/'
    ensures forall i :: r <= i < |p| ==> p[i] != '/'
  {
    if |p| == 0 then 0
    else if p[|p| - 1] == '/' then |p|
    else AfterLastSlash(p[..|p| - 1])
  }

  /** `s` with every trailing '/' removed (`s.rstrip('/')`). */
  function StripTrailingSlashes(s: string): (r: string)
    ensures r <= s
    ensures |r| == 0 || r[|r| - 1] != '/'
    ensures forall i :: |r| <= i < |s| ==> s[i] == '/'
  {
    if |s| > 0 && s[|s| - 1] == '/' then StripTrailingSlashes(s[..|s| - 1]) else s
  }

  /** `posixpath.dirname`: everything before the last '/', with trailing
      slashes removed unless the head consists of slashes only. */
  function Dirname(p: string): (r: string)
    ensures r <= p
    ensures (forall i :: 0 <= i < |p| ==> p[i] != '/') ==> r == []
    ensures |r| == 0 || AllSlashes(r) || r[|r| - 1] != '/'
    ensures AfterLastSlash(p) > 0 ==> |r| > 0
    ensures forall i :: |r| <= i < AfterLastSlash(p) ==> p[i] == '/'
    ensures |r| <= AfterLastSlash(p)
    ensures AllSlashes(p[..AfterLastSlash(p)]) ==> r == p[..AfterLastSlash(p)]
  {
    var head := p[..AfterLastSlash(p)];
    if |head| > 0 && !AllSlashes(head) then StripTrailingSlashes(head) else head
  }

  /** `posixpath.join(a, b)`: an absolute `b` replaces `a`; otherwise `b` is
      appended to `a`, with a '/' inserted unless `a` is empty or already ends
      with one. */
  function Join(a: string, b: string): (r: string)
    ensures |b| <= |r| && r[|r| - |b|..] == b
    ensures |b| > 0 && b[0] == '/' ==> r == b
    ensures (|b| == 0 || b[0] != '/') ==> a <= r
    ensures (|b| == 0 || b[0] != '/') ==> |a| + |b| <= |r| <= |a| + |b| + 1
    ensures (|b| == 0 || b[0] != '/') ==> r == a + b || r == a + "/" + b
    ensures (|b| == 0 || b[0] != '/') && |a| > 0 && a[|a| - 1] != '/' ==> r == a + "/" + b
    ensures (|b| == 0 || b[0] != '/') && (|a| == 0 || a[|a| - 1] == '/') ==> r == a + b
  {
    if |b| > 0 && b[0] == '/' then b
    else if |a| == 0 || a[|a| - 1] == '/' then a + b
    else a + "/" + b
  }

  /** `dirname` undoes `join` of a directory with a plain file name: the
      directory the synchronizer derives from a feed path is the one the
      manifest was joined into. */
  lemma {:induction false} DirnameOfJoin(dir: string, name: string)
    requires |dir| > 0 && dir[|dir| - 1] != '/'
    requires forall i :: 0 <= i < |name| ==> name[i] != '/'
    ensures Dirname(Join(dir, name)) == dir
  {
    var p := dir + "/" + name;
    assert Join(dir, name) == p;
    AfterLastSlashSkipsName(dir + "/", name);
    assert AfterLastSlash(p) == |dir| + 1;
    assert p[..|dir| + 1] == dir + "/";
    assert !AllSlashes(dir + "/") by {
      assert (dir + "/")[|dir| - 1] != '/';
    }
    assert StripTrailingSlashes(dir + "/") == StripTrailingSlashes(dir) by {
      assert (dir + "/")[..|dir|] == dir;
    }
  }

  /** Appending a name without slashes to a path ending in '/' does not move
      the last slash. */
  lemma {:induction false} AfterLastSlashSkipsName(head: string, name: string)
    requires |head| > 0 && head[|head| - 1] == '/'
    requires forall i :: 0 <= i < |name| ==> name[i] != '/'
    ensures AfterLastSlash(head + name) == |head|
    decreases |name|
  {
    if |name| == 0 {
      assert head + name == head;
    } else {
      var shorter := name[..|name| - 1];
      assert (head + name)[..|head + name| - 1] == head + shorter;
      AfterLastSlashSkipsName(head, shorter);
    }
  }
}

=== FILE: removals.dfy ===
/** Resolving the keys chosen for removal back to the prior version's content
    units, unbatched and in batches. */
module Removals {
  import opened Keys

  /** The identifiers of the units of `content` whose key is in `keys`, in
      listing order; a key no unit carries contributes nothing. */
  function BuildRemovals(keys: set<Key>, content: seq<ContentRecord>): (r: seq<nat>)
    ensures |r| <= |content|
  {
    if |content| == 0 then []
    else
      var rest := BuildRemovals(keys, content[1..]);
      if content[0].NaturalKey() in keys then [content[0].id] + rest else rest
  }

  /** The identifier at position `j` of the removals comes from a unit whose
      key was chosen. */
  lemma {:induction false} RemovalSource(keys: set<Key>, content: seq<ContentRecord>, j: nat) returns (i: nat)
    requires j < |BuildRemovals(keys, content)|
    ensures i < |content| && content[i].NaturalKey() in keys
    ensures content[i].id == BuildRemovals(keys, content)[j]
    decreases |content|
  {
    var rest := BuildRemovals(keys, content[1..]);
    if content[0].NaturalKey() in keys && j == 0 {
      i := 0;
    } else {
      var jr := if content[0].NaturalKey() in keys then j - 1 else j;
      assert BuildRemovals(keys, content)[j] == rest[jr];
      var ir := RemovalSource(keys, content[1..], jr);
      assert content[1..][ir] == content[ir + 1];
      i := ir + 1;
    }
  }

  /** Every unit whose key was chosen has its identifier in the removals. */
  lemma {:induction false} RemovalsComplete(keys: set<Key>, content: seq<ContentRecord>)
    ensures forall i :: 0 <= i < |content| && content[i].NaturalKey() in keys ==> content[i].id in BuildRemovals(keys, content)
    decreases |content|
  {
    if |content| > 0 {
      RemovalsComplete(keys, content[1..]);
      forall i | 0 < i < |content|
        ensures content[i] == content[1..][i - 1]
      {
      }
    }
  }

  /** The removals depend only on which of the listed units' keys are chosen,
      not on any other key of the set. */
  lemma {:induction false} RemovalsAgree(k1: set<Key>, k2: set<Key>, content: seq<ContentRecord>)
    requires forall i :: 0 <= i < |content| ==> (content[i].NaturalKey() in k1 <==> content[i].NaturalKey() in k2)
    ensures BuildRemovals(k1, content) == BuildRemovals(k2, content)
    decreases |content|
  {
    if |content| > 0 {
      forall i | 0 <= i < |content[1..]|
        ensures content[1..][i].NaturalKey() in k1 <==> content[1..][i].NaturalKey() in k2
      {
        assert content[1..][i] == content[i + 1];
      }
      RemovalsAgree(k1, k2, content[1..]);
    }
  }

  /** A key that no unit of the listing carries is skipped without effect. */
  lemma RemovalsSkipMissing(keys: set<Key>, content: seq<ContentRecord>)
    ensures BuildRemovals(keys, content) == BuildRemovals(keys * ContentKeys(content), content)
  {
    RemovalsAgree(keys, keys * ContentKeys(content), content);
  }

  /** Removing by the union of two disjoint key sets yields, up to order, the
      removals of each set together. */
  lemma {:induction false} RemovalsUnion(a: set<Key>, b: set<Key>, content: seq<ContentRecord>)
    requires a !! b
    ensures multiset(BuildRemovals(a + b, content)) == multiset(BuildRemovals(a, content)) + multiset(BuildRemovals(b, content))
    decreases |content|
  {
    if |content| > 0 {
      RemovalsUnion(a, b, content[1..]);
    }
  }

  /** The keys of all batches together. */
  function BatchUnion(batches: seq<set<Key>>): (r: set<Key>)
    ensures forall j :: 0 <= j < |batches| ==> batches[j] <= r
    ensures forall k :: k in r ==> exists j :: 0 <= j < |batches| && k in batches[j]
  {
    if |batches| == 0 then {} else batches[0] + BatchUnion(batches[1..])
  }

  /** No batch is empty. */
  predicate NonEmptyBatches(batches: seq<set<Key>>) {
    forall j :: 0 <= j < |batches| ==> |batches[j]| > 0
  }

  /** No two batches share a key. */
  predicate PairwiseDisjoint(batches: seq<set<Key>>) {
    forall i, j :: 0 <= i < j < |batches| ==> batches[i] !! batches[j]
  }

  /** `batches` splits `keys` into non-empty pieces no two of which share a
      key, as iterating a set in fixed-size chunks does. */
  predicate IsPartition(batches: seq<set<Key>>, keys: set<Key>) {
    BatchUnion(batches) == keys && NonEmptyBatches(batches) && PairwiseDisjoint(batches)
  }

  /** One lookup per batch, the results concatenated batch after batch. */
  function BatchedRemovals(batches: seq<set<Key>>, content: seq<ContentRecord>): (r: seq<nat>)
    ensures |r| <= |batches| * |content|
  {
    if |batches| == 0 then []
    else
      var rest := BatchedRemovals(batches[1..], content);
      assert |rest| <= (|batches| - 1) * |content|;
      BuildRemovals(batches[0], content) + rest
  }

  /** How the keys are split into batches does not change which units are
      removed, nor how often; only the order may differ. */
  lemma {:induction false} BatchingPreservesRemovals(batches: seq<set<Key>>, keys: set<Key>, content: seq<ContentRecord>)
    requires IsPartition(batches, keys)
    ensures multiset(BatchedRemovals(batches, content)) == multiset(BuildRemovals(keys, content))
    decreases |batches|
  {
    if |batches| == 0 {
      assert keys == {};
      EmptyKeysRemoveNothing(content);
    } else {
      var rest := batches[1..];
      PartitionTail(batches, keys);
      PartitionHead(batches);
      BatchingPreservesRemovals(rest, BatchUnion(rest), content);
      RemovalsUnion(batches[0], BatchUnion(rest), content);
    }
  }

  /** The batches after the first split their own union. */
  lemma PartitionTail(batches: seq<set<Key>>, keys: set<Key>)
    requires IsPartition(batches, keys) && |batches| > 0
    ensures IsPartition(batches[1..], BatchUnion(batches[1..]))
  {
    NonEmptyTail(batches);
    DisjointTail(batches);
  }

  lemma NonEmptyTail(batches: seq<set<Key>>)
    requires NonEmptyBatches(batches) && |batches| > 0
    ensures NonEmptyBatches(batches[1..])
  {
    var rest := batches[1..];
    forall j | 0 <= j < |rest|
      ensures |rest[j]| > 0
    {
      assert rest[j] == batches[j + 1];
    }
  }

  lemma DisjointTail(batches: seq<set<Key>>)
    requires PairwiseDisjoint(batches) && |batches| > 0
    ensures PairwiseDisjoint(batches[1..])
  {
    var rest := batches[1..];
    forall i, j | 0 <= i < j < |rest|
      ensures rest[i] !! rest[j]
    {
      assert rest[i] == batches[i + 1] && rest[j] == batches[j + 1];
    }
  }

  /** The first batch shares no key with the later ones. */
  lemma PartitionHead(batches: seq<set<Key>>)
    requires PairwiseDisjoint(batches) && |batches| > 0
    ensures batches[0] !! BatchUnion(batches[1..])
  {
    var rest := batches[1..];
    forall k | k in BatchUnion(rest)
      ensures k !in batches[0]
    {
      var j :| 0 <= j < |rest| && k in rest[j];
      assert rest[j] == batches[j + 1];
      assert batches[0] !! batches[j + 1];
    }
  }

  /** Nothing is removed when no key is chosen. */
  lemma {:induction false} EmptyKeysRemoveNothing(content: seq<ContentRecord>)
    ensures BuildRemovals({}, content) == []
    decreases |content|
  {
    if |content| > 0 {
      EmptyKeysRemoveNothing(content[1..]);
    }
  }

  /** There is one identifier per listed unit whose key was chosen. */
  lemma {:induction false} RemovalsLength(keys: set<Key>, content: seq<ContentRecord>)
    ensures |BuildRemovals(keys, content)| == CountIn(RecordKeys(content), keys)
    decreases |content|
  {
    if |content| > 0 {
      assert RecordKeys(content)[1..] == RecordKeys(content[1..]);
      RemovalsLength(keys, content[1..]);
    }
  }

  /** With no duplicate keys in the listing, there is exactly one removal
      per chosen key the listing holds. */
  lemma RemovalsCount(keys: set<Key>, content: seq<ContentRecord>)
    requires DistinctContent(content)
    ensures |BuildRemovals(keys, content)| == |keys * ContentKeys(content)|
  {
    RemovalsLength(keys, content);
    CountInDistinct(RecordKeys(content), keys);
  }
}

=== FILE: scenarios.dfy ===
/** Worked examples of one sync, stated on concrete manifests and versions. */
module Scenarios {
  import opened Wrappers
  import opened Keys
  import opened Paths
  import opened Urls
  import opened Delta
  import opened Additions
  import opened Removals
  import opened Synchronizer

  const Feed := Url("https", "cdn.example.com", "/repo/PULP_MANIFEST", "", "token=1", "")

  /** One new file next to one already held: only its key is added and no
      key is removed. */
  lemma OneFileAddedDelta()
    ensures FindDelta([Entry("a.txt", "d1", 10), Entry("b.txt", "d2", 20)],
                      FetchInventory(Some([ContentRecord(7, "a.txt", "d1")])), true)
            == DeltaResult({Key("b.txt", "d2")}, {})
  {
    var manifest := [Entry("a.txt", "d1", 10), Entry("b.txt", "d2", 20)];
    var prior := [ContentRecord(7, "a.txt", "d1")];
    assert manifest[1..] == [manifest[1]];
    assert manifest[1..][1..] == [];
    assert prior[1..] == [];
    assert ManifestKeys(manifest) == {Key("a.txt", "d1"), Key("b.txt", "d2")};
    assert ContentKeys(prior) == {Key("a.txt", "d1")};
  }

  /** The added key expands to exactly one descriptor, for "b.txt" with its
      digest and size. */
  lemma OneFileAddedDescriptor()
    ensures BuildAdditions([Entry("a.txt", "d1", 10), Entry("b.txt", "d2", 20)], {Key("b.txt", "d2")}, Feed)
            == [Describe(Feed, Entry("b.txt", "d2", 20))]
  {
    var manifest := [Entry("a.txt", "d1", 10), Entry("b.txt", "d2", 20)];
    assert manifest[1..] == [manifest[1]];
    assert manifest[1..][1..] == [];
    assert Key("a.txt", "d1") != Key("b.txt", "d2");
  }

  /** That descriptor is fetched from the manifest's directory, with
      everything else of the feed URL (scheme, host, query) kept. */
  lemma OneFileAddedUrl(feed: Url)
    requires feed.path == "/repo/PULP_MANIFEST"
    ensures Describe(feed, Entry("b.txt", "d2", 20)).artifact
            == PendingArtifact(Artifact(20, "d2"), feed.(path := "/repo/b.txt"), "b.txt")
  {
    SiblingPaths();
    DescribeFetchesSibling(feed, "/repo", "PULP_MANIFEST", Entry("b.txt", "d2", 20));
  }

  /** The paths of the example, split at their last '/'. */
  lemma SiblingPaths()
    ensures "/repo/PULP_MANIFEST" == "/repo" + "/" + "PULP_MANIFEST"
    ensures "/repo" + "/" + "b.txt" == "/repo/b.txt"
    ensures forall i :: 0 <= i < |"PULP_MANIFEST"| ==> "PULP_MANIFEST"[i] != '/'
  {
  }

  /** A file the manifest no longer lists is removed by its identifier, and
      nothing is added. */
  lemma StaleFileRemoved()
    ensures var manifest := [Entry("a.txt", "d1", 10)];
            var prior := [ContentRecord(7, "a.txt", "d1"), ContentRecord(9, "old.txt", "dX")];
            && FindDelta(manifest, FetchInventory(Some(prior)), true) == DeltaResult({}, {Key("old.txt", "dX")})
            && Plan(manifest, Feed, Some(prior)).additions == []
            && Plan(manifest, Feed, Some(prior)).removals == [9]
  {
    var manifest := [Entry("a.txt", "d1", 10)];
    var prior := [ContentRecord(7, "a.txt", "d1"), ContentRecord(9, "old.txt", "dX")];
    assert manifest[1..] == [];
    assert prior[1..] == [prior[1]];
    assert prior[1..][1..] == [];
    assert ManifestKeys(manifest) == {Key("a.txt", "d1")};
    assert ContentKeys(prior) == {Key("a.txt", "d1"), Key("old.txt", "dX")};
    assert Key("a.txt", "d1") != Key("old.txt", "dX");
  }

  /** A key chosen for removal that the listing no longer holds yields no
      identifier and no error. */
  lemma VanishedKeySkipped()
    ensures BuildRemovals({Key("gone.txt", "dY")}, [ContentRecord(7, "a.txt", "d1")]) == []
  {
    assert [ContentRecord(7, "a.txt", "d1")][1..] == [];
  }
}

=== FILE: sync_task.dfy ===
/** The `sync` task: validate the importer, stage a new repository version,
    run the synchronizer, and then either complete the version or delete it
    together with its created-resource record. */
module SyncTask {
  import opened Wrappers
  import opened Keys
  import opened Urls
  import opened Synchronizer

  /** A stored version of a repository: its number, whether it is complete
      (visible to readers), and its content listing. */
  datatype RepositoryVersion = RepositoryVersion(number: nat, complete: bool, content: seq<ContentRecord>)

  /** The persisted state a sync touches: the repository's version counter,
      its versions in creation order, and the versions that have a
      created-resource record. */
  datatype Repository = Repository(lastVersion: nat, versions: seq<RepositoryVersion>, createdResources: seq<nat>)

  /** The importer's feed URL, as text and as parsed by `urlparse`. */
  datatype Importer = Importer(feedUrl: string, feed: Url)

  /** Version numbers grow with creation order and never pass the counter. */
  predicate Valid(repo: Repository) {
    && (forall i, j :: 0 <= i < j < |repo.versions| ==> repo.versions[i].number < repo.versions[j].number)
    && (forall i :: 0 <= i < |repo.versions| ==> repo.versions[i].number <= repo.lastVersion)
  }

  /** The complete version with the highest number, if any version is
      complete; incomplete versions are never chosen. */
  function LatestComplete(vs: seq<RepositoryVersion>): (r: Option<RepositoryVersion>)
    ensures r.None? <==> forall i :: 0 <= i < |vs| ==> !vs[i].complete
    ensures r.Some? ==> r.value in vs && r.value.complete
    ensures r.Some? ==> forall i :: 0 <= i < |vs| && vs[i].complete ==> vs[i].number <= r.value.number
  {
    if |vs| == 0 then None
    else
      var rest := LatestComplete(vs[1..]);
      assert forall i :: 0 < i < |vs| ==> vs[i] == vs[1..][i - 1];
      if !vs[0].complete then rest
      else match rest
        case None => Some(vs[0])
        case Some(v) => if vs[0].number >= v.number then Some(vs[0]) else rest
  }

  /** The content listing of the version a sync starts from. */
  function BaseContent(repo: Repository): (r: Option<seq<ContentRecord>>)
    ensures r.None? <==> forall i :: 0 <= i < |repo.versions| ==> !repo.versions[i].complete
    ensures r.Some? ==> exists i :: 0 <= i < |repo.versions| && repo.versions[i].complete
                          && repo.versions[i].content == r.value
                          && forall j :: 0 <= j < |repo.versions| && repo.versions[j].complete ==>
                               repo.versions[j].number <= repo.versions[i].number
  {
    match LatestComplete(repo.versions)
    case None => None
    case Some(v) => Some(v.content)
  }

  /** Appending an incomplete version leaves the latest complete one as it was. */
  lemma {:induction false} LatestCompleteIgnoresIncomplete(vs: seq<RepositoryVersion>, v: RepositoryVersion)
    requires !v.complete
    ensures LatestComplete(vs + [v]) == LatestComplete(vs)
    decreases |vs|
  {
    if |vs| == 0 {
      assert ([] + [v])[1..] == [];
    } else {
      assert (vs + [v])[1..] == vs[1..] + [v];
      LatestCompleteIgnoresIncomplete(vs[1..], v);
    }
  }

  /** Appending a complete version numbered above all others makes it the
      latest complete one. */
  lemma {:induction false} LatestCompleteTakesNewest(vs: seq<RepositoryVersion>, v: RepositoryVersion)
    requires v.complete
    requires forall i :: 0 <= i < |vs| ==> vs[i].number < v.number
    ensures LatestComplete(vs + [v]) == Some(v)
  {
    var r := LatestComplete(vs + [v]);
    assert (vs + [v])[|vs|] == v;
    forall i | 0 <= i < |vs + [v]| && (vs + [v])[i] != v
      ensures (vs + [v])[i].number < v.number
    {
      assert (vs + [v])[i] == vs[i];
    }
  }

  /** The `sync` task. `setup` says whether entering the working directory
      and logging the start of the sync succeed; `fetched` is the downloaded
      manifest, absent when the download or the read fails; `apply` is the
      apply engine, reporting the new version's content or failing. `staged`
      is the state committed before the synchronizer runs and `final` the
      state after. */
  method Sync(repo: Repository, importer: Importer, setup: bool, fetched: Option<seq<Entry>>,
              apply: ChangeSet -> Option<seq<ContentRecord>>)
    returns (result: Result<nat, SyncError>, staged: Repository, final: Repository)
    // an empty feed URL is refused before anything is created
    ensures |importer.feedUrl| == 0 ==> result == Failure(MissingFeedUrl) && staged == repo && final == repo
    // otherwise the next number is taken and an incomplete version staged
    ensures |importer.feedUrl| > 0 ==>
              && staged.lastVersion == repo.lastVersion + 1
              && staged.versions == repo.versions + [RepositoryVersion(repo.lastVersion + 1, false, [])]
              && staged.createdResources == repo.createdResources + [repo.lastVersion + 1]
              && LatestComplete(staged.versions) == LatestComplete(repo.versions)
    // a failure before the guarded run leaves the staged version behind, incomplete
    ensures |importer.feedUrl| > 0 && !setup ==> result == Failure(SetupFailed) && final == staged
    // the version is completed exactly when the run succeeds
    ensures result.Success? <==>
              |importer.feedUrl| > 0 && setup && fetched.Some?
              && apply(Plan(fetched.value, importer.feed, BaseContent(repo))).Some?
    ensures result.Success? ==>
              && fetched.Some?
              && result.value == repo.lastVersion + 1
              && final.lastVersion == result.value
              && final.versions == repo.versions
                   + [RepositoryVersion(result.value, true, apply(Plan(fetched.value, importer.feed, BaseContent(repo))).value)]
              && final.createdResources == staged.createdResources
    // a failed run deletes the version and its record, but not the number
    ensures |importer.feedUrl| > 0 && setup && result.Failure? ==>
              && final == repo.(lastVersion := repo.lastVersion + 1)
              && result.error == (if fetched.None? then ManifestUnavailable else ApplyFailed)
    // readers see a new version only after a successful sync
    ensures result.Failure? ==> LatestComplete(final.versions) == LatestComplete(repo.versions)
    ensures Valid(repo) ==> Valid(staged) && Valid(final)
    ensures Valid(repo) && result.Success? ==>
              LatestComplete(final.versions) == Some(final.versions[|final.versions| - 1])
  {
    if |importer.feedUrl| == 0 {
      return Failure(MissingFeedUrl), repo, repo;
    }
    var base := BaseContent(repo);
    var number := repo.lastVersion + 1;
    var newVersion := RepositoryVersion(number, false, []);
    staged := Repository(number, repo.versions + [newVersion], repo.createdResources + [number]);
    LatestCompleteIgnoresIncomplete(repo.versions, newVersion);
    if Valid(repo) {
      ValidAfterAppend(repo, newVersion, staged.createdResources);
    }
    if !setup {
      return Failure(SetupFailed), staged, staged;
    }
    result, final := RunStaged(repo, fetched, importer.feed, base, apply);
    if Valid(repo) {
      if result.Success? {
        var completed := final.versions[|final.versions| - 1];
        assert final.versions == repo.versions + [completed];
        CompletedIsLatest(repo, completed, final.createdResources);
      } else {
        ValidAfterBump(repo);
      }
    }
  }

  /** The guarded part of the task. `before` is the repository as it was
      before staging; the staged version is `before.lastVersion + 1`. Run the
      synchronizer from `base`, then complete that version with the engine's
      content, or on failure delete it and its created-resource record,
      keeping the counter advanced. */
  method RunStaged(before: Repository, fetched: Option<seq<Entry>>, feed: Url,
                   base: Option<seq<ContentRecord>>, apply: ChangeSet -> Option<seq<ContentRecord>>)
    returns (result: Result<nat, SyncError>, final: Repository)
    ensures result.Success? <==> fetched.Some? && apply(Plan(fetched.value, feed, base)).Some?
    ensures result.Success? ==>
              && fetched.Some?
              && result.value == before.lastVersion + 1
              && final == Repository(result.value,
                                     before.versions + [RepositoryVersion(result.value, true, apply(Plan(fetched.value, feed, base)).value)],
                                     before.createdResources + [result.value])
    ensures result.Failure? ==>
              && final == before.(lastVersion := before.lastVersion + 1)
              && result.error == (if fetched.None? then ManifestUnavailable else ApplyFailed)
  {
    var outcome := Run(fetched, feed, base, apply);
    var settled := Settle(before, outcome);
    result, final := settled.0, settled.1;
  }

  /** The version `before.lastVersion + 1` after the run: completed with the
      content the run produced, or deleted together with its created-resource
      record when the run failed, the counter staying advanced either way. */
  function Settle(before: Repository, outcome: Result<seq<ContentRecord>, SyncError>): (r: (Result<nat, SyncError>, Repository))
    ensures r.0.Success? <==> outcome.Success?
    ensures outcome.Success? ==>
              && r.0 == Success(before.lastVersion + 1)
              && r.1.lastVersion == before.lastVersion + 1
              && r.1.versions == before.versions + [RepositoryVersion(before.lastVersion + 1, true, outcome.value)]
              && r.1.createdResources == before.createdResources + [before.lastVersion + 1]
    ensures outcome.Failure? ==>
              && r.0 == Failure(outcome.error)
              && r.1.versions == before.versions
              && r.1.createdResources == before.createdResources
              && r.1.lastVersion == before.lastVersion + 1
  {
    var number := before.lastVersion + 1;
    match outcome
    case Success(content) =>
      (Success(number), Repository(number, before.versions + [RepositoryVersion(number, true, content)],
                                   before.createdResources + [number]))
    case Failure(e) => (Failure(e), before.(lastVersion := number))
  }


  /** Appending a version numbered one past the counter, and moving the
      counter to it, keeps the repository valid. */
  lemma ValidAfterAppend(repo: Repository, v: RepositoryVersion, resources: seq<nat>)
    requires Valid(repo)
    requires v.number == repo.lastVersion + 1
    ensures Valid(Repository(v.number, repo.versions + [v], resources))
  {
    var vs := repo.versions + [v];
    forall i | 0 <= i < |repo.versions|
      ensures vs[i] == repo.versions[i]
    {
    }
  }

  /** Moving the counter on without adding a version keeps the repository
      valid. */
  lemma ValidAfterBump(repo: Repository)
    requires Valid(repo)
    ensures Valid(repo.(lastVersion := repo.lastVersion + 1))
  {
  }

  /** Appending a complete version numbered one past the counter keeps the
      repository valid and makes that version the latest complete one. */
  lemma CompletedIsLatest(repo: Repository, v: RepositoryVersion, resources: seq<nat>)
    requires Valid(repo)
    requires v.number == repo.lastVersion + 1 && v.complete
    ensures Valid(Repository(v.number, repo.versions + [v], resources))
    ensures LatestComplete(repo.versions + [v]) == Some(v)
  {
    ValidAfterAppend(repo, v, resources);
    LatestCompleteTakesNewest(repo.versions, v);
  }
}

=== FILE: synchronizer.dfy ===
/** One run of the synchronizer: read the manifest, snapshot the prior
    version, compute the delta, expand it into additions and removals and hand
    both, with their announced sizes, to the apply engine. */
module Synchronizer {
  import opened Wrappers
  import opened Keys
  import opened Urls
  import opened Delta
  import opened Additions
  import opened Removals

  /** What the apply engine receives: the two streams and the lengths they
      are announced with. */
  datatype ChangeSet = ChangeSet(additions: seq<PendingContent>, additionCount: nat,
                                 removals: seq<nat>, removalCount: nat)

  /** Why a sync fails. */
  datatype SyncError = MissingFeedUrl | SetupFailed | ManifestUnavailable | ApplyFailed

  /** The change set of one run, computed from the manifest (read twice), the
      feed URL and the prior version's content listing, if any. The run
      always mirrors. */
  function Plan(manifest: seq<Entry>, feed: Url, prior: Option<seq<ContentRecord>>): (cs: ChangeSet)
    ensures cs.additionCount == |ManifestKeys(manifest) - FetchInventory(prior)|
    ensures cs.removalCount == |FetchInventory(prior) - ManifestKeys(manifest)|
    ensures |cs.additions| <= |manifest| && |cs.removals| <= |prior.GetOr([])|
  {
    var inventory := FetchInventory(prior);
    var delta := FindDelta(manifest, inventory, true);
    ChangeSet(BuildAdditions(manifest, delta.keysToAdd, feed), |delta.keysToAdd|,
              BuildRemovals(delta.keysToRemove, prior.GetOr([])), |delta.keysToRemove|)
  }

  /** What the plan adds: a descriptor of every manifest entry whose key the
      prior version lacks, and nothing else. */
  lemma PlanAdditions(manifest: seq<Entry>, feed: Url, prior: Option<seq<ContentRecord>>)
    ensures var cs := Plan(manifest, feed, prior);
            && (forall d :: d in cs.additions ==> DescribesChosen(d, manifest, ManifestKeys(manifest) - FetchInventory(prior), feed))
            && (forall i :: 0 <= i < |manifest| && manifest[i].NaturalKey() !in FetchInventory(prior) ==>
                  Describe(feed, manifest[i]) in cs.additions)
  {
    var delta := FindDelta(manifest, FetchInventory(prior), true);
    assert delta.keysToAdd == ManifestKeys(manifest) - FetchInventory(prior);
    AdditionsSound(manifest, delta.keysToAdd, feed);
    AdditionsComplete(manifest, delta.keysToAdd, feed);
  }

  /** A first sync removes nothing. */
  lemma FirstSyncRemovesNothing(manifest: seq<Entry>, feed: Url)
    ensures Plan(manifest, feed, None).removals == []
    ensures Plan(manifest, feed, None).removalCount == 0
  {
    assert FindDelta(manifest, FetchInventory(None), true).keysToRemove == {};
    EmptyKeysRemoveNothing([]);
  }

  /** Every prior unit whose key the manifest lacks is removed. */
  lemma PlanRemovalsComplete(manifest: seq<Entry>, feed: Url, content: seq<ContentRecord>)
    ensures forall i :: 0 <= i < |content| && content[i].NaturalKey() !in ManifestKeys(manifest) ==>
              content[i].id in Plan(manifest, feed, Some(content)).removals
  {
    var delta := FindDelta(manifest, ContentKeys(content), true);
    forall i | 0 <= i < |content| && content[i].NaturalKey() !in ManifestKeys(manifest)
      ensures content[i].NaturalKey() in delta.keysToRemove
    {
    }
    RemovalsComplete(delta.keysToRemove, content);
  }

  /** `id` identifies a unit of `content` whose key `manifest` lacks. */
  predicate IdentifiesStale(id: nat, content: seq<ContentRecord>, manifest: seq<Entry>) {
    exists i :: 0 <= i < |content| && content[i].id == id && content[i].NaturalKey() !in ManifestKeys(manifest)
  }

  /** Only prior units whose key the manifest lacks are removed. */
  lemma PlanRemovalsSound(manifest: seq<Entry>, feed: Url, content: seq<ContentRecord>)
    ensures forall id :: id in Plan(manifest, feed, Some(content)).removals ==> IdentifiesStale(id, content, manifest)
  {
    var delta := FindDelta(manifest, ContentKeys(content), true);
    var r := BuildRemovals(delta.keysToRemove, content);
    forall id | id in r
      ensures IdentifiesStale(id, content, manifest)
    {
      var j :| 0 <= j < |r| && r[j] == id;
      var i := RemovalSource(delta.keysToRemove, content, j);
      assert content[i].NaturalKey() in delta.keysToRemove;
    }
  }

  /** The number of additions announced to the apply engine is the true
      number of descriptors whenever the manifest repeats no key. */
  lemma AdditionCountExact(manifest: seq<Entry>, feed: Url, prior: Option<seq<ContentRecord>>)
    requires DistinctEntries(manifest)
    ensures Plan(manifest, feed, prior).additionCount == |Plan(manifest, feed, prior).additions|
  {
    var keys := FindDelta(manifest, FetchInventory(prior), true).keysToAdd;
    SubsetIntersection(keys, ManifestKeys(manifest));
    AdditionsCount(manifest, keys, feed);
  }

  /** The number of removals announced to the apply engine is the true
      number of identifiers whenever the prior listing repeats no key. */
  lemma RemovalCountExact(manifest: seq<Entry>, feed: Url, content: seq<ContentRecord>)
    requires DistinctContent(content)
    ensures Plan(manifest, feed, Some(content)).removalCount == |Plan(manifest, feed, Some(content)).removals|
  {
    var delta := FindDelta(manifest, ContentKeys(content), true);
    RemovalsCount(delta.keysToRemove, content);
    assert delta.keysToRemove * ContentKeys(content) == delta.keysToRemove;
  }

  lemma SubsetIntersection(a: set<Key>, b: set<Key>)
    requires a <= b
    ensures a * b == a
  {
  }

  /** `Synchronizer.run`: fetch and read the manifest, plan the change set and
      apply it. The engine reports the new version's content, or nothing when
      it fails; every failure is passed on to the caller. */
  function Run(fetched: Option<seq<Entry>>, feed: Url, prior: Option<seq<ContentRecord>>,
               apply: ChangeSet -> Option<seq<ContentRecord>>): (r: Result<seq<ContentRecord>, SyncError>)
    ensures r.Success? <==> fetched.Some? && apply(Plan(fetched.value, feed, prior)).Some?
    ensures r.Success? ==> apply(Plan(fetched.value, feed, prior)) == Some(r.value)
    ensures r.Failure? ==> r.error == (if fetched.None? then ManifestUnavailable else ApplyFailed)
  {
    match fetched
    case None => Failure(ManifestUnavailable)
    case Some(manifest) =>
      match apply(Plan(manifest, feed, prior))
      case None => Failure(ApplyFailed)
      case Some(content) => Success(content)
  }
}

=== FILE: urls.dfy ===
/** A parsed URL as `urllib.parse.urlparse` returns it, and the fetch location
    of a manifest entry: the feed URL with only its path replaced. */
module Urls {
  import opened Paths

  datatype Url = Url(scheme: string, netloc: string, path: string,
                     params: string, query: string, fragment: string)

  /** `u` and `v` differ at most in their path. */
  predicate SameOrigin(u: Url, v: Url) {
    u.scheme == v.scheme && u.netloc == v.netloc && u.params == v.params
    && u.query == v.query && u.fragment == v.fragment
  }

  /** The directory the manifest lives in, as a path. */
  function FeedDir(feed: Url): string {
    Dirname(feed.path)
  }

  /** Where an entry of the manifest at `feed` is fetched from: a URL of the
      feed's origin whose path ends with the entry's path, and lies under the
      feed's directory when the entry's path is relative. */
  function EntryUrl(feed: Url, entryPath: string): (u: Url)
    ensures SameOrigin(u, feed)
    ensures |entryPath| <= |u.path| && u.path[|u.path| - |entryPath|..] == entryPath
    ensures (|entryPath| == 0 || entryPath[0] != '/') ==> FeedDir(feed) <= u.path
  {
    feed.(path := Join(FeedDir(feed), entryPath))
  }

  /** A relative entry path lands in the manifest's own directory, whatever
      the scheme, host, parameters, query and fragment of the feed. */
  lemma EntryUrlIsSibling(feed: Url, dir: string, manifestName: string, entryPath: string)
    requires feed.path == dir + "/" + manifestName
    requires |dir| == 0 || dir[|dir| - 1] != '/'
    requires forall i :: 0 <= i < |manifestName| ==> manifestName[i] != '/'
    requires |entryPath| == 0 || entryPath[0] != '/'
    ensures SameOrigin(EntryUrl(feed, entryPath), feed)
    ensures EntryUrl(feed, entryPath).path == dir + "/" + entryPath
  {
    if |dir| == 0 {
      // a manifest at the root: its directory is "/" itself
      assert feed.path == "/" + manifestName;
      AfterLastSlashSkipsName("/", manifestName);
      assert feed.path[..1] == "/";
      assert AllSlashes("/");
      assert FeedDir(feed) == "/";
      assert Join("/", entryPath) == "/" + entryPath;
    } else {
      DirnameOfJoin(dir, manifestName);
      assert Join(dir, manifestName) == feed.path;
    }
  }

  /** An absolute entry path is used as the fetch path unchanged. */
  lemma EntryUrlAbsolute(feed: Url, entryPath: string)
    requires |entryPath| > 0 && entryPath[0] == '/'
    ensures SameOrigin(EntryUrl(feed, entryPath), feed)
    ensures EntryUrl(feed, entryPath).path == entryPath
  {
  }
}

=== FILE: wrappers.dfy ===
/** Failure-carrying datatypes shared by the model: an optional value for the
    "no prior version" case and a result for operations that can raise. */
module Wrappers {

  datatype Option<+T> = None | Some(value: T) {

    /** The wrapped value, or `default` when there is none. */
    function GetOr(default: T): T {
      match this
      case Some(v) => v
      case None => default
    }
  }

  datatype Result<+R, +E> = Success(value: R) | Failure(error: E)
}
